=== FILE: README.md ===
# Blackjack cog: a Dafny model of its rules engine

This project models the rules engine of the bot's blackjack command
(`main/cogs/blackjack.py`) and proves properties of it. It covers the
following parts:

- the 52-card deck built from the cog's face, value and suit tables;
- `deal`, which shuffles and pops one card;
- `value` and `total_value`, including the cog's own ace rule and its
  random 2-or-12 for two aces;
- `score`, the ordered win, lose, tie or continue classification;
- the opening redraw loop;
- `dealersTurn` and the stand loop that drives it;
- the wager admission checks;
- the turn loop with its cumulative invalid-input counter.

Modules follow those parts:

| module | file | covers |
|---|---|---|
| `Cards` | cards.dfy | face/value/suit tables, `value`, the new deck |
| `HandValue` | hand.dfy | `total_value` and what it equals |
| `Dealing` | deal.dfy | `deal`, and dealing two-card hands |
| `Scoring` | score.dfy | `score` |
| `Dealer` | dealer.dfy | `dealersTurn`, the stand loop as written, the corrected loop |
| `Opening` | opening.dfy | the opening deal and its redraws |
| `Wager` | wager.dfy | the wallet and bet checks |
| `Game` | game.dfy | the turn loop and the whole command |

Randomness is handled as follows:

- **Dealing.** `random.shuffle` followed by `pop` can hand out any card of the deck.
  - The function `Deal` takes the position of the card as a parameter.
  - The methods choose it with `:|`.
  - Every deal shuffles again, so the model keeps the remaining cards in their order.
- **Two aces.** `random.choice([2, 12])` is the boolean `highPair`, where true means 12.
  - The cog computes a hand's total afresh at every check, so it may draw again each time.
  - The model fixes one draw per hand for each classification. The stand loop as written uses one draw per step, and the corrected loop draws afresh at every step.
  - `Scoring.ScoreRedrawn` keeps the fresh draw at every check, to show what that changes.
- **Inputs.** The player's messages are a sequence of `Command`s. Running out of them stands for the 15-second timeout.

Some behaviour of the code is easy to misread. The model follows the code as written:

- **Invalid inputs.**
  - The code counts invalid inputs over the whole round and ends the game at the second one (lines 63-65, 103-104).
  - It does not look for three in a row.
- **Redraws.**
  - The opening redraw deals again from the same, shrinking deck (lines 54-61).
  - It does not start from a fresh deck, and the discarded pairs are not returned.
- **Two aces.**
  - The random 2-or-12 applies only to a hand of exactly two aces and exactly two other cards, because the length at line 130 is taken after the aces are filtered out.
  - So `[A, A]` is worth 22 and `[A, A, 5]` 27.
- **Dealer bound.** The stand loop at line 94 has no five-card bound; see Findings.

## Model

| member | source | states |
|---|---|---|
| Cards.FaceValue | main/cogs/blackjack.py:120-121 | A face's value is between 1 and 10, and it is 1 exactly for an ace. |
| Cards.FaceValueByRank | main/cogs/blackjack.py:14-15 | From the two tables: number faces are worth their number, J, Q and K are worth 10, and an ace is worth 1. |
| Cards.IndexOf | main/cogs/blackjack.py:121 | `list.index` finds a position holding the item with no earlier occurrence. |
| Cards.FaceIndexIsListIndex | main/cogs/blackjack.py:14-15 | The face table lists each face once, so the index lookup of `value` is well defined and lands on the face's own position. |
| Cards.NewDeckComplete | main/cogs/blackjack.py:46-48 | Every face and suit combination is in the new deck. |
| Cards.NewDeckHoldsEachCardOnce | main/cogs/blackjack.py:46-48 | Every card occurs exactly once in the new deck. |
| HandValue.NewDeckHasFourAces | main/cogs/blackjack.py:46-48 | The new deck holds exactly four aces. |
| Dealing.Deal | main/cogs/blackjack.py:110-113 | A deal from a non-empty deck returns a card of the deck. The deck shrinks by one, and the rest plus the card is the old deck as a multiset. |
| Dealing.DealReachesEveryCard | main/cogs/blackjack.py:110-113 | Any card of the deck can be the one dealt. |
| Dealing.DealMovesAces | main/cogs/blackjack.py:110-113 | A deal moves an ace from the deck to the hand exactly when it deals one. |
| Dealing.DealAny | main/cogs/blackjack.py:110-113 | A deal with the card left open keeps the same conservation facts as `Deal`. |
| Dealing.DealPair | main/cogs/blackjack.py:50 | Two deals in a row make a two-card hand. Together with the deck that is left, the hand is the old deck. |
| Dealing.DealHands | main/cogs/blackjack.py:49-52 | The opening deal takes two cards for each side from one deck. No card is lost or made up, and the ace counts add up. |
| HandValue.TotalByTallies | main/cogs/blackjack.py:123-135 | The hand total is the sum of the non-ace cards plus, for the aces: 2 or 12 for two aces beside exactly two other cards; otherwise 1 each when the non-ace sum is 11 or more, else 11 each. |
| HandValue.ValueIgnoresOrder | main/cogs/blackjack.py:123-135 | Two hands holding the same cards in any order have the same total. |
| HandValue.DrawMattersIff | main/cogs/blackjack.py:130-131 | The random draw changes the total if and only if the hand has two aces and four cards. The high draw is then worth exactly 10 more. |
| HandValue.TwoCardsDeterministic | main/cogs/blackjack.py:130-131 | Every two-card hand has a single value. |
| HandValue.HighDrawAtLeastLow | main/cogs/blackjack.py:130-131 | Drawing 12 never gives a smaller total than drawing 2. |
| HandValue.AceFreeTotal | main/cogs/blackjack.py:123-135 | A hand without aces is worth the plain sum of its card values. |
| HandValue.AtMostOneAceIsStandard | main/cogs/blackjack.py:125-135 | With at most one ace, the total is the usual blackjack total: the ace counts 11 when that stays within 21. |
| HandValue.HighOthersIsStandard | main/cogs/blackjack.py:129-135 | When the other cards sum to 11 or more, the total is the usual one, with every ace counting 1. The one exception is two aces beside two other cards with the draw of 12, which is exactly 10 more. |
| HandValue.ManyAcesLowOthersBust | main/cogs/blackjack.py:126-135 | Outside the random case, two or more aces beside other cards summing under 11 make the hand bust. The usual rule would score it lower. |
| HandValue.TwoCardsAtLeast21HaveAce | main/cogs/blackjack.py:123-135 | A two-card hand worth 21 or more holds an ace. |
| HandValue.ExampleAceNine | main/cogs/blackjack.py:123-135 | [A, 9] is worth 20 and [A, 9, 5] is worth 15. |
| HandValue.ExampleAcePair | main/cogs/blackjack.py:126-133 | [A, A] is worth 22 and [A, A, 5] is worth 27, whatever the draw. |
| HandValue.ExampleAcePairDraw | main/cogs/blackjack.py:130-131 | [A, A, 5, 5] is worth 12 or 22, as the draw says. |
| Scoring.Score | main/cogs/blackjack.py:137-176 | A player over 21 loses whatever the dealer holds or `stood` says. The round goes on (the bare player total) exactly when the player has not stood, both totals are under 21 and neither hand has five cards. A tie needs a stand and equal totals. |
| Scoring.ScoreMatchesRules | main/cogs/blackjack.py:137-176 | The ordered checks decide a win, a loss and a tie exactly as precedence-free rules over the two totals, the hand sizes and `stood` say. |
| Scoring.StoodAlwaysDecides | main/cogs/blackjack.py:149-176 | With one draw per hand per classification, every classification after a stand decides the round. |
| Scoring.ExampleHigherOnStand | main/cogs/blackjack.py:168-174 | After a stand, 10, 9 against 10, 8 is a win on the higher total. |
| Scoring.ScoreRedrawn | main/cogs/blackjack.py:137-176 | The checks as written, each reading a fresh total with its own draw. A player bust at the first check loses, a tie needs a stand, and the bare total returned is the one read at the last check. |
| Scoring.RedrawsMatterOnlyForAcePairs | main/cogs/blackjack.py:130-131 | When neither hand holds two aces beside two other cards, fresh draws at every check classify the round exactly as `Score` does. |
| Scoring.SameDrawsScoreAlike | main/cogs/blackjack.py:137-176 | With the same draw for a hand at every check, the checks as written classify exactly as `Score` does. |
| Scoring.BustBranchMayGetBareTotal | main/cogs/blackjack.py:253-257 | A reachable hand shows the fault. The player opens A, 5 (16) against 10, 5 (15), and the round goes on. A hit of 6 makes 12 and a hit of A makes 13, and the round goes on after each. After a stand, A, 5, 6, A reads 23 at the bust check of `dealersTurn`. Yet with 2 drawn at every check of `score` but line 162, `score` returns the bare total 13 instead of a result. |
| Scoring.StoodMayContinue | main/cogs/blackjack.py:149-176 | After a stand, 5, 4, A, A against 10, 7 can pass every check with fresh draws, so the cog returns the bare total instead of a decision. |
| Opening.OpeningDeal | main/cogs/blackjack.py:49-61 | After the redraw loop, both hands have two cards, each worth under 21 whatever the draw. There are at most four redraws, the deck holds 48 - 4k cards after k redraws, and no card is made up. |
| Dealer.DealerTurn | main/cogs/blackjack.py:253-261 | One step appends exactly one dealt card when the player is not bust and the dealer has fewer than five cards under 17. Otherwise it changes nothing. It never takes the dealer past five cards, and cards are conserved. |
| Dealer.DealerLoop | main/cogs/blackjack.py:93-96 | The stand loop as written keeps the dealer hand's prefix, the five-card bound and the cards. It stalls only with five dealer cards or a bust player, and always with five dealer cards under 17. A bust player's opponent is never dealt a card. Otherwise it finishes at 17 or more. |
| Dealer.StalledDealerHand | main/cogs/blackjack.py:94-95 | Beside a standing 10, 7, the dealer hand 2, 3, 2, 2, 2 is worth 11, so the loop test holds. The step leaves that hand unchanged. |
| Dealer.StuckDealerReachable | main/cogs/blackjack.py:54-61 | That stuck hand is reachable: 2, 3 is a valid opening pair, and each of three steps deals a further 2. |
| Dealer.DealerPlay | main/cogs/blackjack.py:94-95 | The corrected stand loop, which draws both hands' 2-or-12 afresh at every step, always stops. It keeps the dealer hand's prefix, the five-card bound and the cards, and never deals on 17 or more. A player bust under every draw leaves the dealer and the deck unchanged. Otherwise it ends with five dealer cards or a dealer total of at least 17. |
| Wager.Admit | main/cogs/blackjack.py:20-41 | Refusals follow the source's order, each stated as an if and only if. A wallet of 10,000,000 or more is too rich, an empty wallet has no coins, and a bet over 500,000 is over the maximum. A bet over the wallet is refused unless it is exactly 500,000, which is lowered to the wallet. An accepted bet never exceeds the wallet or 500,000. |
| Game.ReadOneMore | main/cogs/blackjack.py:103-104 | Reading one more input adds one to the invalid count exactly when it is not h, s or e. |
| Game.PlayerHits | main/cogs/blackjack.py:91-92 | A hit appends one card from the deck to the player's hand. The deck loses exactly that card, and the cards in play stay a sub-multiset of the new deck. |
| Game.PlayerStands | main/cogs/blackjack.py:93-96 | A stand, played by the corrected loop rather than the loop at line 94, keeps the cards in play valid and only extends the dealer hand. The deck loses exactly the cards the dealer gains, and every card the dealer takes is taken under 17. A player bust under every draw leaves the dealer hand as it was. Otherwise the dealer stops with five cards or a total of at least 17. |
| Game.Classify | main/cogs/blackjack.py:66-68 | A round goes on only while the player has not stood and does not hold five cards. Ties and higher-total verdicts need a stand. |
| Game.PlayRound | main/cogs/blackjack.py:63-108 | The invalid count never exceeds 2. The round is forfeited exactly when the second invalid input arrives, and quit exactly when e is read. A settled round is what `score` says of the final hands, with `stood` true exactly after an s. With one draw per hand per classification, any s is the last input read. |
| Game.PlayBlackjack | main/cogs/blackjack.py:19-108 | A refused wager reads no input. An admitted one plays with the admitted amount, and the final hands hold no card twice. The forfeit and quit conditions of PlayRound carry over. |

## Left out

- Discord input and output are left out: sending embeds, `wait_for`, and reading the first letter of a message. The inputs are a sequence of commands, and the timeout is running out of them.
- Rendering is left out: `start`, `end`, `get_icon`, links and colours. It is presentation only.
- The ledger is left out: reading the wallet, `update_data`, the payout `round(amount * boost)` and the half penalty `round(0.5 * amount)`. The store is external, the payout uses floating point, and the penalty uses Python's round-half-to-even. Endings say which outcome happened: `Settled` with its verdict, `Quit` and `Forfeited` (half lost), and `TimedOut` (nothing charged). They do not say what amount was paid.
- `convert_to_int` is left out. The amount it returns is the input of `Wager.Admit`.
- The fairness of `random.shuffle` is left out. Dealing is a free choice of any card, not a distribution.
- The order of the deck after a deal is left out, because every deal shuffles first.
- Scoring.Score: each hand's 2-or-12 is drawn once per classification, while the cog may draw it again at every check. `Scoring.ScoreRedrawn` models the checks as written, and only four-card hands with two aces are affected (`Scoring.RedrawsMatterOnlyForAcePairs`); see Findings.
- Scoring.StoodAlwaysDecides: holds with one draw per hand per classification. With the cog's fresh draw at every check, a stood 5, 4, A, A against 10, 7 can fall through to the bare total (`Scoring.StoodMayContinue`).
- Game.PlayRound: classifies with `Scoring.Score`, so "any s is the last input read" holds only with one draw per hand per classification. In the cog, the fall-through of `Scoring.StoodMayContinue` makes the loop at line 65 read another input after a stand, and a later h deals the player another card.
- Dealer.DealerLoop: one draw per step serves both the loop test and the step. The cog draws separately for each, so with two aces and two other cards it may spin a few extra times before dealing.
- Dealer.DealerLoop: the player's draw is fixed for the whole loop. Its Finished case is stated with the high draw. The low draw may read under 17 only in the two-aces-beside-two-cards case.
- Game.PlayRound: a stand uses the corrected loop `Dealer.DealerPlay`, not the loop as written; see Findings.
- The bust-player branch of `dealersTurn` calls `score` and `end` and deals nothing. Only its effect on the cards (none) is modelled. Its failure when `score` returns the bare total is recorded under Findings.
- Dealer.DealerPlay: a step at which the player's fresh draw reads bust, or the dealer's step reads 17 or more after the loop test read under 17, deals nothing. The cog repeats such a step with new draws, and the model leaves those repetitions out. Which draws the cog makes, and how often, is not modelled.
- Game.PlayerStands: inherits that simplification from `Dealer.DealerPlay`. The player's draw at each dealer step is one under which the player is not bust whenever there is one, so the stop condition depends only on the player's low total.
- main/cogs/developer.py and main/cogs/help.py are not part of this model. They are process, database and framework glue.

## Findings

| source | as written | input that shows it | evidently intended | confidence | as-written member | corrected member |
|---|---|---|---|---|---|---|
| main/cogs/blackjack.py:94 | `while total_value(bot_cards) < 17` repeats `dealersTurn`, which deals only to a dealer with fewer than five cards and a player not bust, so a five-card dealer hand under 17 makes the loop spin forever. | Player stands on 10, 7. Dealer opens 2, 3 (5) and is dealt 2, 2, 2 (7, 9, 11), giving five cards worth 11. | Stop dealing at five cards, as the step itself does: deal while the dealer is under 17 with fewer than five cards. | not executed | Dealer.StalledDealerHand | Dealer.DealerPlay |
| main/cogs/blackjack.py:137-176 | Every check of `score` calls `total_value` again, and a hand of two aces beside two other cards draws 2 or 12 afresh at each, so a stood round can fall through every check to the bare total and the turn loop asks for more input after the stand. | The player stands on 5, 4, A, A (11 or 21) against 10, 7. The draws are 2 at line 142, 12 at lines 149 to 162, and 2 at line 168. | Compute each hand's total once per classification, so that after a stand every classification decides. | not executed | Scoring.StoodMayContinue | Scoring.Score |
| main/cogs/blackjack.py:253-257 | `dealersTurn` tests the player bust with one call of `total_value` and then calls `score(True, ...)`, which draws again. If `score` falls through to its bare total, `end` runs `kwargs.pop("result")` on an int (line 209) and raises. | The player opens A, 5 against 10, 5, hits a 6 and an A (13 with the draw of 2), and stands. Line 254 draws 12 (23). In `score`, line 162 draws 12 and every other check draws 2, so it returns 13. | Read the player's total once, so that a player found bust is scored as a bust loss. | not executed | Scoring.BustBranchMayGetBareTotal | Scoring.Score |

=== FILE: cards.dfy ===
/**
  Cards of the blackjack cog: the face, value and suit tables the cog keeps,
  the face-to-value lookup, and the 52-card deck it builds at the start of
  every round.
 */
module Cards {

  datatype Face = Ace | Two | Three | Four | Five | Six | Seven | Eight | Nine | Ten | Jack | Queen | King

  datatype Suit = Spades | Hearts | Diamonds | Clubs

  /** A card is a face paired with a suit. */
  datatype Card = Card(face: Face, suit: Suit)

  /** The face table, in the cog's order. */
  const Faces: seq<Face> := [Ace, Two, Three, Four, Five, Six, Seven, Eight, Nine, Ten, Jack, Queen, King]

  /** The value table: Values[i] is the value of Faces[i]. */
  const Values: seq<nat> := [1, 2, 3, 4, 5, 6, 7, 8, 9, 10, 10, 10, 10]

  /** The suit table, in the cog's order. */
  const Suits: seq<Suit> := [Spades, Hearts, Diamonds, Clubs]

  /** The printed rank of a face: A is 1, the numbers are themselves, J, Q, K are 11, 12, 13. */
  function Rank(f: Face): nat
  {
    match f
    case Ace => 1
    case Two => 2
    case Three => 3
    case Four => 4
    case Five => 5
    case Six => 6
    case Seven => 7
    case Eight => 8
    case Nine => 9
    case Ten => 10
    case Jack => 11
    case Queen => 12
    case King => 13
  }

  /** Position of the first occurrence of x in s, as a list's `index` finds it. */
  function IndexOf<T(==)>(s: seq<T>, x: T): (i: nat)
    requires x in s
    ensures i < |s| && s[i] == x
    ensures x !in s[..i]
  {
    if s[0] == x then 0 else 1 + IndexOf(s[1..], x)
  }

  lemma FacesByRank(f: Face)
    ensures |Faces| == 13 && |Values| == 13
    ensures Faces[Rank(f) - 1] == f
    ensures Values[Rank(f) - 1] == if Rank(f) >= 10 then 10 else Rank(f)
  {
  }

  lemma FacesDistinct()
    ensures forall i, j :: 0 <= i < j < |Faces| ==> Faces[i] != Faces[j]
  {
  }

  /** Where a face sits in the face table: one before its rank. */
  function FaceIndex(f: Face): (i: nat)
    ensures i < |Faces| && Faces[i] == f
  {
    FacesByRank(f);
    Rank(f) - 1
  }

  /** The face table lists each face once, so a list search for a face finds FaceIndex. */
  lemma FaceIndexIsListIndex(f: Face)
    ensures f in Faces
    ensures IndexOf(Faces, f) == FaceIndex(f)
  {
    FacesDistinct();
  }

  /**
    The value of one face: the entry of the value table at the face's
    position in the face table. An ace counts 1 here; the hand total decides
    when it counts 11.
   */
  function FaceValue(f: Face): (v: nat)
    ensures 1 <= v <= 10
    ensures v == 1 <==> f == Ace
  {
    FacesByRank(f);
    Values[FaceIndex(f)]
  }

  /** Number faces are worth their number, J, Q and K are worth 10 and an ace 1. */
  lemma FaceValueByRank(f: Face)
    ensures FaceValue(f) == if Rank(f) >= 10 then 10 else Rank(f)
  {
    FacesByRank(f);
  }

  /**
    The deck the cog builds at the start of a round: for every suit in
    table order, every face in table order.
   */
  function NewDeck(): (deck: seq<Card>)
    ensures |deck| == 52
  {
    seq(52, i requires 0 <= i < 52 => Card(Faces[i % 13], Suits[i / 13]))
  }

  function SuitIndex(s: Suit): (i: nat)
    ensures i < 4 && Suits[i] == s
  {
    match s
    case Spades => 0
    case Hearts => 1
    case Diamonds => 2
    case Clubs => 3
  }

  /** Every one of the 52 face and suit combinations is in the new deck. */
  lemma NewDeckComplete(c: Card)
    ensures c in NewDeck()
  {
    var deck := NewDeck();
    var f := Rank(c.face) - 1;
    var s := SuitIndex(c.suit);
    FacesByRank(c.face);
    var i := s * 13 + f;
    assert i % 13 == f && i / 13 == s;
    assert deck[i] == c;
  }

  /** No card occurs twice in the new deck. */
  lemma NewDeckDistinct()
    ensures forall i, j :: 0 <= i < j < 52 ==> NewDeck()[i] != NewDeck()[j]
  {
    var deck := NewDeck();
    FacesDistinct();
    forall i, j | 0 <= i < j < 52
      ensures deck[i] != deck[j]
    {
      if i % 13 == j % 13 {
        assert i / 13 != j / 13;
        assert Suits[i / 13] != Suits[j / 13];
      } else {
        assert Faces[i % 13] != Faces[j % 13];
      }
    }
  }

  lemma {:induction false} DistinctOnce<T>(s: seq<T>, x: T)
    requires forall i, j :: 0 <= i < j < |s| ==> s[i] != s[j]
    ensures multiset(s)[x] <= 1
  {
    if s != [] {
      DistinctOnce(s[1..], x);
      assert s == [s[0]] + s[1..];
      if s[0] == x {
        assert x !in s[1..];
      }
    }
  }

  /** The new deck holds every card exactly once. */
  lemma NewDeckHoldsEachCardOnce(c: Card)
    ensures multiset(NewDeck())[c] == 1
  {
    NewDeckComplete(c);
    NewDeckDistinct();
    DistinctOnce(NewDeck(), c);
  }
}

=== FILE: deal.dfy ===
/**
  Dealing one card. The cog shuffles the deck and pops its last card, so
  any card of the deck may come out; the model names the card by its
  position `pick`. Because every deal shuffles again first, the order the
  remaining cards are kept in makes no difference to later deals.
 */
module Dealing {
  import opened Cards
  import opened HandValue

  datatype Dealt = Dealt(card: Card, rest: seq<Card>)

  /** One deal from a non-empty deck (popping an empty list raises). */
  function Deal(deck: seq<Card>, pick: nat): (d: Dealt)
    requires pick < |deck|
    ensures d.card in deck
    ensures |d.rest| == |deck| - 1
    ensures multiset(d.rest) + multiset{d.card} == multiset(deck)
  {
    assert deck == deck[..pick] + [deck[pick]] + deck[pick + 1..];
    Dealt(deck[pick], deck[..pick] + deck[pick + 1..])
  }

  /** Every card of the deck is one that a deal can hand out. */
  lemma DealReachesEveryCard(deck: seq<Card>, c: Card)
    requires c in deck
    ensures exists pick: nat :: pick < |deck| && Deal(deck, pick).card == c
  {
    var pick :| 0 <= pick < |deck| && deck[pick] == c;
    assert Deal(deck, pick).card == c;
  }

  /** A deal moves an ace out of the deck exactly when it hands one out. */
  lemma DealMovesAces(deck: seq<Card>, pick: nat)
    requires pick < |deck|
    ensures Aces(Deal(deck, pick).rest) + Aces([Deal(deck, pick).card]) == Aces(deck)
  {
    var d := Deal(deck, pick);
    assert multiset(d.rest + [d.card]) == multiset(deck);
    TalliesIgnoreOrder(d.rest + [d.card], deck);
    HandConcat(d.rest, [d.card]);
  }

  /** A deal with the choice left open, as the cog makes it. */
  method DealAny(deck: seq<Card>) returns (card: Card, rest: seq<Card>)
    requires |deck| > 0
    ensures card in deck
    ensures |rest| == |deck| - 1
    ensures multiset(rest) + multiset{card} == multiset(deck)
    ensures Aces(rest) + Aces([card]) == Aces(deck)
  {
    var pick: nat :| pick < |deck|;
    var d := Deal(deck, pick);
    DealMovesAces(deck, pick);
    card, rest := d.card, d.rest;
  }

  /** Two deals in a row, making a two-card hand. */
  method DealPair(deck: seq<Card>) returns (rest: seq<Card>, pair: seq<Card>)
    requires |deck| >= 2
    ensures |pair| == 2
    ensures |rest| == |deck| - 2
    ensures multiset(rest) + multiset(pair) == multiset(deck)
    ensures Aces(rest) + Aces(pair) == Aces(deck)
  {
    var c1, c2;
    var d1: seq<Card>;
    c1, d1 := DealAny(deck);
    c2, rest := DealAny(d1);
    pair := [c1, c2];
    assert pair == [c1] + [c2];
    HandConcat([c1], [c2]);
  }

  /**
    The opening deal of a round: two cards to the player, then two to the
    dealer, all from the same deck.
   */
  method DealHands(deck: seq<Card>) returns (rest: seq<Card>, user: seq<Card>, bot: seq<Card>)
    requires |deck| >= 4
    ensures |user| == 2 && |bot| == 2
    ensures |rest| == |deck| - 4
    ensures multiset(rest) + multiset(user) + multiset(bot) == multiset(deck)
    ensures Aces(rest) + Aces(user) + Aces(bot) == Aces(deck)
  {
    var d1;
    d1, user := DealPair(deck);
    rest, bot := DealPair(d1);
  }
}

=== FILE: dealer.dfy ===
/**
  The dealer's play after the player stands. One step (the cog's
  dealersTurn) deals the dealer one more card when the player is not bust,
  the dealer holds fewer than five cards and the dealer's total is under 17.
  The cog repeats that step while the dealer's total is under 17, with no
  bound on the number of cards. The loop as written fixes one draw of each
  hand's 2-or-12 per step, shared by the loop test and the step; the
  corrected loop draws afresh at every step.
 */
module Dealer {
  import opened Cards
  import opened HandValue
  import opened Dealing

  datatype Table = Table(bot: seq<Card>, deck: seq<Card>)

  /** When one dealer step deals a card. */
  predicate DrawsNow(user: seq<Card>, bot: seq<Card>, userDraw: bool, botDraw: bool)
  {
    TotalValue(user, userDraw) <= 21 && |bot| < 5 && TotalValue(bot, botDraw) < 17
  }

  /**
    One dealer step. Beside a bust player the cog calls `score` and `end`
    and deals nothing (Scoring.BustBranchMayGetBareTotal shows that call
    can fail); the player's hand is never changed.
   */
  function DealerTurn(user: seq<Card>, bot: seq<Card>, deck: seq<Card>, pick: nat, userDraw: bool, botDraw: bool): (t: Table)
    requires DrawsNow(user, bot, userDraw, botDraw) ==> pick < |deck|
    ensures DrawsNow(user, bot, userDraw, botDraw) ==> |t.bot| == |bot| + 1 && t.bot[..|bot|] == bot
    ensures !DrawsNow(user, bot, userDraw, botDraw) ==> t == Table(bot, deck)
    ensures |bot| <= 5 ==> |t.bot| <= 5
    ensures multiset(t.bot) + multiset(t.deck) == multiset(bot) + multiset(deck)
  {
    if TotalValue(user, userDraw) > 21 then Table(bot, deck)
    else if |bot| < 5 then
      if TotalValue(bot, botDraw) < 17 then
        var d := Deal(deck, pick);
        Table(bot + [d.card], d.rest)
      else Table(bot, deck)
    else Table(bot, deck)
  }

  /** How the cog's dealer loop ends: it finishes, or it would repeat a step that changes nothing forever. */
  datatype DealerRun = Finished(bot: seq<Card>, deck: seq<Card>) | Stalled(bot: seq<Card>, deck: seq<Card>)

  /**
    The cog's dealer loop as written: repeat the step while the dealer's
    total is under 17. A step that deals nothing leaves the state as it was,
    so the cog would repeat it without end; the model reports that state as
    Stalled. It stalls only with five dealer cards or a bust player, and
    always with five dealer cards under 17.
   */
  method DealerLoop(user: seq<Card>, userDraw: bool, bot: seq<Card>, deck: seq<Card>) returns (r: DealerRun)
    requires |bot| <= 5
    requires |deck| >= 5 - |bot|
    ensures |bot| <= |r.bot| <= 5 && r.bot[..|bot|] == bot
    ensures multiset(r.bot) + multiset(r.deck) == multiset(bot) + multiset(deck)
    ensures |r.bot| + |r.deck| == |bot| + |deck|
    ensures r.Finished? ==> TotalValue(r.bot, true) >= 17
    ensures r.Stalled? ==> TotalValue(r.bot, false) < 17
    ensures r.Stalled? ==> |r.bot| == 5 || TotalValue(user, userDraw) > 21
    ensures |r.bot| == 5 && TotalValue(r.bot, false) < 17 ==> r.Stalled?
    ensures TotalValue(user, userDraw) > 21 ==> r.bot == bot && r.deck == deck
    ensures TotalValue(user, userDraw) <= 21 && |r.bot| < 5 ==> r.Finished?
  {
    var b, d := bot, deck;
    var botDraw: bool :| true;
    while TotalValue(b, botDraw) < 17
      invariant |bot| <= |b| <= 5 && b[..|bot|] == bot
      invariant |d| >= 5 - |b|
      invariant multiset(b) + multiset(d) == multiset(bot) + multiset(deck)
      invariant |b| + |d| == |bot| + |deck|
      invariant TotalValue(user, userDraw) > 21 ==> b == bot && d == deck
      decreases 5 - |b|
    {
      var pick: nat :| DrawsNow(user, b, userDraw, botDraw) ==> pick < |d|;
      var t := DealerTurn(user, b, d, pick, userDraw, botDraw);
      if !DrawsNow(user, b, userDraw, botDraw) {
        HighDrawAtLeastLow(b);
        return Stalled(b, d);
      }
      assert t.bot[..|bot|] == b[..|bot|];
      b, d := t.bot, t.deck;
      botDraw :| true;
    }
    DrawMattersIff(b);
    return Finished(b, d);
  }

  /**
    The dealer's play as intended: repeat the step while the dealer holds
    fewer than five cards and reads under 17, and stop once the step would
    deal nothing. Each step draws both hands' 2-or-12 afresh, as the cog
    does. A step at which the player's fresh draw reads bust deals nothing
    and changes nothing, and the cog simply draws again; the model leaves
    such repeated steps out, so the player's draw is one under which the
    player is not bust whenever there is one. The loop always stops, never
    deals on 17 or more, never deals beside a player bust under every draw,
    and otherwise stops with five cards or a total of at least 17.
   */
  method DealerPlay(user: seq<Card>, bot: seq<Card>, deck: seq<Card>) returns (t: Table)
    requires |bot| <= 5
    requires |deck| >= 5 - |bot|
    ensures |bot| <= |t.bot| <= 5 && t.bot[..|bot|] == bot
    ensures multiset(t.bot) + multiset(t.deck) == multiset(bot) + multiset(deck)
    ensures |t.bot| + |t.deck| == |bot| + |deck|
    ensures forall k :: |bot| <= k < |t.bot| ==> TotalValue(t.bot[..k], false) < 17
    ensures TotalValue(user, false) > 21 ==> t == Table(bot, deck)
    ensures TotalValue(user, false) <= 21 ==> |t.bot| == 5 || TotalValue(t.bot, true) >= 17
  {
    var b, d := bot, deck;
    HighDrawAtLeastLow(user);
    var userDraw: bool :| TotalValue(user, userDraw) <= 21 || TotalValue(user, false) > 21;
    var botDraw: bool :| true;
    while DrawsNow(user, b, userDraw, botDraw)
      invariant |bot| <= |b| <= 5 && b[..|bot|] == bot
      invariant |d| >= 5 - |b|
      invariant multiset(b) + multiset(d) == multiset(bot) + multiset(deck)
      invariant |b| + |d| == |bot| + |deck|
      invariant forall k :: |bot| <= k < |b| ==> TotalValue(b[..k], false) < 17
      invariant TotalValue(user, false) > 21 ==> b == bot && d == deck
      invariant TotalValue(user, false) <= 21 ==> TotalValue(user, userDraw) <= 21
      decreases 5 - |b|
    {
      var pick: nat :| pick < |d|;
      var t' := DealerTurn(user, b, d, pick, userDraw, botDraw);
      HighDrawAtLeastLow(b);
      DealtPrefixes(bot, b, t'.bot);
      b, d := t'.bot, t'.deck;
      userDraw :| TotalValue(user, userDraw) <= 21 || TotalValue(user, false) > 21;
      botDraw :| true;
    }
    HighDrawAtLeastLow(b);
    t := Table(b, d);
  }

  /** Growing a hand by one card drawn under 17 keeps every drawing prefix under 17. */
  lemma DealtPrefixes(bot: seq<Card>, b: seq<Card>, b': seq<Card>)
    requires |bot| <= |b| && |b'| == |b| + 1 && b'[..|b|] == b
    requires forall k :: |bot| <= k < |b| ==> TotalValue(b[..k], false) < 17
    requires TotalValue(b, false) < 17
    ensures forall k :: |bot| <= k < |b'| ==> TotalValue(b'[..k], false) < 17
  {
    forall k | |bot| <= k < |b'|
      ensures TotalValue(b'[..k], false) < 17
    {
      if k < |b| {
        assert b'[..k] == b[..k];
      }
    }
  }

  /**
    The dealer hand 2, 3, 2, 2, 2 (total 11) beside a standing 10, 7: the
    step deals nothing while the loop test stays true, so the cog's loop
    never ends. The hand arises from an opening 2, 3 (total 5) and three
    dealt 2s (totals 7, 9, 11, each under 17).
   */
  lemma StalledDealerHand(userDraw: bool, botDraw: bool, deck: seq<Card>, pick: nat)
    ensures TotalValue(StuckDealer(), botDraw) == 11 < 17
    ensures DealerTurn(StandingPlayer(), StuckDealer(), deck, pick, userDraw, botDraw) == Table(StuckDealer(), deck)
  {
    StuckTotals(userDraw, botDraw);
    assert !DrawsNow(StandingPlayer(), StuckDealer(), userDraw, botDraw);
  }

  function StandingPlayer(): seq<Card> { [Card(Ten, Spades), Card(Seven, Spades)] }

  function StuckDealer(): seq<Card>
  {
    [Card(Two, Spades), Card(Three, Spades), Card(Two, Hearts), Card(Two, Diamonds), Card(Two, Clubs)]
  }

  lemma StuckTotals(userDraw: bool, botDraw: bool)
    ensures TotalValue(StandingPlayer(), userDraw) == 17
    ensures TotalValue(StuckDealer(), botDraw) == 11
    ensures |StuckDealer()| == 5
    ensures TotalValue(StuckDealer()[..2], botDraw) == 5
    ensures TotalValue(StuckDealer()[..3], botDraw) == 7
    ensures TotalValue(StuckDealer()[..4], botDraw) == 9
  {
    FaceValueByRank(Ten);
    FaceValueByRank(Seven);
    AceFreeTotal(StandingPlayer(), userDraw);
    StuckDealerTotals(botDraw);
  }

  lemma StuckDealerTotals(botDraw: bool)
    ensures TotalValue(StuckDealer(), botDraw) == 11
    ensures TotalValue(StuckDealer()[..2], botDraw) == 5
    ensures TotalValue(StuckDealer()[..3], botDraw) == 7
    ensures TotalValue(StuckDealer()[..4], botDraw) == 9
  {
    var b := StuckDealer();
    StuckPrefixSum(2);
    StuckPrefixSum(3);
    StuckPrefixSum(4);
    StuckPrefixSum(5);
    AceFreeTotal(b[..2], botDraw);
    AceFreeTotal(b[..3], botDraw);
    AceFreeTotal(b[..4], botDraw);
    assert b[..5] == b;
    AceFreeTotal(b, botDraw);
  }

  /** The first k cards of the stuck hand are worth 2k + 1. */
  lemma {:induction false} StuckPrefixSum(k: nat)
    requires 2 <= k <= 5
    ensures HardSum(StuckDealer()[..k]) == 2 * k + 1
  {
    var b := StuckDealer();
    FaceValueByRank(Two);
    if k == 2 {
      FaceValueByRank(Three);
      assert b[..2] == [b[0]] + [b[1]];
      HardSumSnoc([b[0]], b[1]);
      assert [b[0]][1..] == [];
    } else {
      StuckPrefixSum(k - 1);
      assert b[..k] == b[..k - 1] + [b[k - 1]];
      HardSumSnoc(b[..k - 1], b[k - 1]);
    }
  }

  /**
    The stuck hand is reachable: the opening 2, 3 is under 21, and from it
    each of the three steps with the next 2 on top of the deck deals that 2.
   */
  lemma StuckDealerReachable(userDraw: bool, botDraw: bool)
    ensures TotalValue(StuckDealer()[..2], botDraw) < 21
    ensures TotalValue(StandingPlayer(), userDraw) < 21
    ensures forall k :: 2 <= k < 5 ==>
              DealerTurn(StandingPlayer(), StuckDealer()[..k], [StuckDealer()[k]], 0, userDraw, botDraw)
              == Table(StuckDealer()[..k + 1], [])
  {
    StuckTotals(userDraw, botDraw);
    var b := StuckDealer();
    forall k | 2 <= k < 5
      ensures DealerTurn(StandingPlayer(), b[..k], [b[k]], 0, userDraw, botDraw) == Table(b[..k + 1], [])
    {
      assert DrawsNow(StandingPlayer(), b[..k], userDraw, botDraw);
      assert b[..k] + [b[k]] == b[..k + 1];
    }
  }
}

=== FILE: game.dfy ===
/**
  One round of the blackjack command: admit the wager, make the opening
  deal, then loop while fewer than two invalid inputs have been seen. Each
  turn classifies the round; a decided round ends, otherwise the next input
  is read: hit deals the player a card, stand plays the dealer and marks the
  player as stood, end quits, anything else is one more invalid input. The
  invalid-input count is never reset. The inputs are given as a sequence;
  running out of them stands for the input timeout.
 */
module Game {
  import opened Cards
  import opened HandValue
  import opened Dealing
  import opened Scoring
  import opened Dealer
  import opened Opening
  import opened Wager

  /** An input's first letter, lowered: h, s, e, or anything else. */
  datatype Command = Hit | Stand | End | Other

  datatype Ending =
    | Settled(verdict: Verdict, reason: Reason)
    | Quit            // the player typed end; half the bet is lost
    | Forfeited       // two invalid inputs; half the bet is lost
    | TimedOut        // no input within the timeout

  datatype GameResult = Rejected(error: WagerError) | Played(wager: int, ending: Ending)

  /** How many invalid inputs a run of inputs holds. */
  function Invalids(cmds: seq<Command>): nat
  {
    if cmds == [] then 0
    else Invalids(cmds[..|cmds| - 1]) + (if cmds[|cmds| - 1] == Other then 1 else 0)
  }

  /** Reading one more input: what the prefix read so far gains. */
  lemma ReadOneMore(cmds: seq<Command>, n: nat)
    requires n < |cmds|
    ensures Invalids(cmds[..n + 1]) == Invalids(cmds[..n]) + (if cmds[n] == Other then 1 else 0)
    ensures forall c :: c in cmds[..n + 1] <==> c in cmds[..n] || c == cmds[n]
    ensures cmds[..n + 1][n] == cmds[n]
  {
    assert cmds[..n + 1][..n] == cmds[..n];
    assert cmds[..n + 1] == cmds[..n] + [cmds[n]];
  }

  /** The cards in play: hand sizes the round keeps, and no card made up or doubled. */
  predicate InPlay(deck: seq<Card>, user: seq<Card>, bot: seq<Card>)
  {
    && 2 <= |user| <= 5 && 2 <= |bot| <= 5
    && |deck| + |user| + |bot| >= 36
    && multiset(deck) + multiset(user) + multiset(bot) <= multiset(NewDeck())
  }

  /** The player hits: one card from the deck joins the player's hand. */
  method PlayerHits(deck: seq<Card>, user: seq<Card>, bot: seq<Card>) returns (deck': seq<Card>, user': seq<Card>)
    requires InPlay(deck, user, bot) && |user| < 5
    ensures InPlay(deck', user', bot)
    ensures |user'| == |user| + 1 && user'[..|user|] == user && user'[|user|] in deck
    ensures |deck'| == |deck| - 1
    ensures multiset(deck') + multiset{user'[|user|]} == multiset(deck)
  {
    var card;
    card, deck' := DealAny(deck);
    user' := user + [card];
    assert user'[..|user|] == user;
  }

  /**
    The player stands: the dealer plays, by the loop that stops when the
    dealer step would deal nothing (see Dealer.DealerPlay).
   */
  method PlayerStands(deck: seq<Card>, user: seq<Card>, bot: seq<Card>) returns (t: Table)
    requires InPlay(deck, user, bot)
    ensures InPlay(t.deck, user, t.bot)
    ensures |t.bot| >= |bot| && t.bot[..|bot|] == bot
    ensures multiset(t.bot) + multiset(t.deck) == multiset(bot) + multiset(deck)
    ensures |t.bot| + |t.deck| == |bot| + |deck|
    ensures forall k :: |bot| <= k < |t.bot| ==> TotalValue(t.bot[..k], false) < 17
    ensures TotalValue(user, false) <= 21 ==> |t.bot| == 5 || TotalValue(t.bot, true) >= 17
    ensures TotalValue(user, false) > 21 ==> t.bot == bot
  {
    t := DealerPlay(user, bot, deck);
    calc {
      multiset(t.deck) + multiset(user) + multiset(t.bot);
      (multiset(t.bot) + multiset(t.deck)) + multiset(user);
      (multiset(bot) + multiset(deck)) + multiset(user);
      multiset(deck) + multiset(user) + multiset(bot);
    }
  }

  /**
    One classification, with each hand's two-ace draw left open. A round
    goes on only while the player has not stood and does not hold five
    cards; the verdicts that compare totals or report a tie need a stand.
   */
  method Classify(stood: bool, user: seq<Card>, bot: seq<Card>) returns (status: Status, userDraw: bool, botDraw: bool)
    ensures status == Score(stood, user, bot, userDraw, botDraw)
    ensures status.Continue? ==> !stood && |user| != 5
    ensures status.Decided? && status.reason in {Tied, DealerHigher, PlayerHigher} ==> stood
  {
    userDraw :| true;
    botDraw :| true;
    status := Score(stood, user, bot, userDraw, botDraw);
  }

  /**
    The turn loop, from the opening deal on. `used` is how many inputs the
    round read; `user` and `bot` are the hands when it ended; `userDraw`
    and `botDraw` are the two-ace draws of the last classification.
   */
  method PlayRound(deck0: seq<Card>, user0: seq<Card>, bot0: seq<Card>, cmds: seq<Command>)
    returns (ending: Ending, used: nat, user: seq<Card>, bot: seq<Card>, userDraw: bool, botDraw: bool)
    requires InPlay(deck0, user0, bot0)
    ensures used <= |cmds|
    ensures 2 <= |user| <= 5 && 2 <= |bot| <= 5
    ensures multiset(user) + multiset(bot) <= multiset(NewDeck())
    ensures Invalids(cmds[..used]) <= 2
    ensures ending == Forfeited <==> Invalids(cmds[..used]) == 2
    ensures ending == Forfeited ==> used > 0 && cmds[used - 1] == Other
    ensures End in cmds[..used] <==> ending == Quit
    ensures ending == Quit ==> used > 0 && cmds[used - 1] == End
    ensures ending == TimedOut ==> used == |cmds|
    ensures Stand in cmds[..used] ==> cmds[used - 1] == Stand
    ensures ending.Settled? ==>
              Score(Stand in cmds[..used], user, bot, userDraw, botDraw) == Decided(ending.verdict, ending.reason)
    ensures ending.Settled? && ending.reason in {Tied, DealerHigher, PlayerHigher} ==> Stand in cmds[..used]
  {
    var deck;
    deck, user, bot := deck0, user0, bot0;
    used := 0;
    var stood := false;
    var fails := 0;
    userDraw, botDraw := false, false;
    while fails < 2
      invariant used <= |cmds|
      invariant fails == Invalids(cmds[..used]) <= 2
      invariant InPlay(deck, user, bot)
      invariant stood <==> Stand in cmds[..used]
      invariant stood ==> used > 0 && cmds[used - 1] == Stand
      invariant End !in cmds[..used]
      invariant fails == 2 ==> used > 0 && cmds[used - 1] == Other
      decreases |cmds| - used
    {
      var status;
      status, userDraw, botDraw := Classify(stood, user, bot);
      if status.Decided? {
        return Settled(status.verdict, status.reason), used, user, bot, userDraw, botDraw;
      }
      if used == |cmds| {
        return TimedOut, used, user, bot, userDraw, botDraw;
      }
      var cmd := cmds[used];
      ReadOneMore(cmds, used);
      used := used + 1;
      match cmd {
        case Hit =>
          deck, user := PlayerHits(deck, user, bot);
        case Stand =>
          var t := PlayerStands(deck, user, bot);
          bot, deck := t.bot, t.deck;
          stood := true;
        case End =>
          return Quit, used, user, bot, userDraw, botDraw;
        case Other =>
          fails := fails + 1;
      }
    }
    return Forfeited, used, user, bot, userDraw, botDraw;
  }

  /** The whole command: the wager, the opening deal, then the turn loop. */
  method PlayBlackjack(wallet: int, amount: int, cmds: seq<Command>)
    returns (r: GameResult, used: nat, user: seq<Card>, bot: seq<Card>)
    ensures used <= |cmds|
    ensures r.Rejected? <==> Admit(wallet, amount).Refused?
    ensures r.Rejected? ==> r.error == Admit(wallet, amount).error && used == 0
    ensures r.Played? ==> r.wager == Admit(wallet, amount).amount
    ensures r.Played? ==> 2 <= |user| <= 5 && 2 <= |bot| <= 5
    ensures r.Played? ==> multiset(user) + multiset(bot) <= multiset(NewDeck())
    ensures r.Played? ==> forall c :: multiset(user)[c] + multiset(bot)[c] <= 1
    ensures r.Played? ==> (r.ending == Forfeited <==> Invalids(cmds[..used]) == 2)
    ensures r.Played? ==> (r.ending == Quit <==> End in cmds[..used])
    ensures Stand in cmds[..used] ==> cmds[used - 1] == Stand
  {
    var admission := Admit(wallet, amount);
    if admission.Refused? {
      return Rejected(admission.error), 0, [], [];
    }
    var deck, user0, bot0, redraws := OpeningDeal();
    var ending, userDraw, botDraw;
    ending, used, user, bot, userDraw, botDraw := PlayRound(deck, user0, bot0, cmds);
    forall c
      ensures multiset(user)[c] + multiset(bot)[c] <= 1
    {
      NewDeckHoldsEachCardOnce(c);
    }
    r := Played(admission.amount, ending);
  }
}

=== FILE: hand.dfy ===
/**
  The value of a hand, as the cog's total_value computes it: the faces of
  the hand are read off, the aces are counted and filtered out, the other
  faces are summed through the value table, and the aces are then added
  with the cog's own rule. A hand of exactly two aces and exactly two other
  cards is the one case where the cog draws a random 2 or 12 for the aces;
  the draw is the parameter `highPair` here (true picks 12).
 */
module HandValue {
  import opened Cards

  /** The faces of a hand, card by card. */
  function FacesOf(h: seq<Card>): (fs: seq<Face>)
    ensures |fs| == |h|
    ensures forall i :: 0 <= i < |h| ==> fs[i] == h[i].face
  {
    seq(|h|, i requires 0 <= i < |h| => h[i].face)
  }

  /** How many aces a sequence of faces holds. */
  function AceCount(fs: seq<Face>): nat
  {
    if fs == [] then 0 else (if fs[0] == Ace then 1 else 0) + AceCount(fs[1..])
  }

  /** The faces that are not aces, in their order. */
  function NonAces(fs: seq<Face>): seq<Face>
  {
    if fs == [] then []
    else if fs[0] == Ace then NonAces(fs[1..])
    else [fs[0]] + NonAces(fs[1..])
  }

  /** The sum of the value-table entries of some faces (an ace counting 1). */
  function PipSum(fs: seq<Face>): nat
  {
    if fs == [] then 0 else FaceValue(fs[0]) + PipSum(fs[1..])
  }

  /**
    The cog's hand total. `values` starts as the faces; when there are aces
    they are filtered out; the remaining faces are summed. If the ace count
    and the number of remaining faces are both 2, the aces add 2 or 12 as
    `highPair` says; otherwise they add 1 each when the other faces sum to
    11 or more and 11 each when they do not.
   */
  function TotalValue(h: seq<Card>, highPair: bool): int
  {
    var values := FacesOf(h);
    var aces := AceCount(values);
    var rest := if aces > 0 then NonAces(values) else values;
    var total := PipSum(rest);
    var acesValue :=
      if aces == 2 && |rest| == 2 then (if highPair then 12 else 2)
      else if total >= 11 then aces * 1
      else aces * 11;
    total + acesValue
  }

  /** The three tallies the total depends on. */
  function Aces(h: seq<Card>): nat { AceCount(FacesOf(h)) }

  function Others(h: seq<Card>): nat { |NonAces(FacesOf(h))| }

  function Pips(h: seq<Card>): nat { PipSum(NonAces(FacesOf(h))) }

  /** True of the hands for which the cog draws 2 or 12 for the aces. */
  predicate AcePairDraw(h: seq<Card>)
  {
    Aces(h) == 2 && Others(h) == 2
  }

  lemma NonAcesNoAces(fs: seq<Face>)
    ensures |NonAces(fs)| + AceCount(fs) == |fs|
    ensures AceCount(fs) == 0 ==> NonAces(fs) == fs
    ensures PipSum(fs) == PipSum(NonAces(fs)) + AceCount(fs)
  {
    NonAcesLength(fs);
    NonAcesWithoutAces(fs);
    PipSumSplit(fs);
  }

  lemma {:induction false} NonAcesLength(fs: seq<Face>)
    ensures |NonAces(fs)| + AceCount(fs) == |fs|
  {
    if fs != [] {
      NonAcesLength(fs[1..]);
    }
  }

  lemma {:induction false} NonAcesWithoutAces(fs: seq<Face>)
    ensures AceCount(fs) == 0 ==> NonAces(fs) == fs
  {
    if fs != [] && AceCount(fs) == 0 {
      NonAcesWithoutAces(fs[1..]);
      assert fs[0] != Ace;
      assert NonAces(fs) == [fs[0]] + NonAces(fs[1..]);
      assert fs == [fs[0]] + fs[1..];
    }
  }

  lemma {:induction false} PipSumSplit(fs: seq<Face>)
    ensures PipSum(fs) == PipSum(NonAces(fs)) + AceCount(fs)
  {
    if fs != [] {
      PipSumSplit(fs[1..]);
      var x := fs[0];
      if x == Ace {
        assert NonAces(fs) == NonAces(fs[1..]);
        assert FaceValue(x) == 1;
      } else {
        assert NonAces(fs) == [x] + NonAces(fs[1..]);
        PipSumCons(x, NonAces(fs[1..]));
      }
    }
  }

  lemma PipSumCons(x: Face, fs: seq<Face>)
    ensures PipSum([x] + fs) == FaceValue(x) + PipSum(fs)
  {
    assert ([x] + fs)[1..] == fs;
  }

  lemma FacesConcat(a: seq<Face>, b: seq<Face>)
    ensures AceCount(a + b) == AceCount(a) + AceCount(b)
    ensures NonAces(a + b) == NonAces(a) + NonAces(b)
    ensures PipSum(a + b) == PipSum(a) + PipSum(b)
  {
    AceCountConcat(a, b);
    NonAcesConcat(a, b);
    PipSumConcat(a, b);
  }

  lemma {:induction false} AceCountConcat(a: seq<Face>, b: seq<Face>)
    ensures AceCount(a + b) == AceCount(a) + AceCount(b)
  {
    if a == [] {
      assert a + b == b;
    } else {
      AceCountConcat(a[1..], b);
      assert (a + b)[1..] == a[1..] + b;
    }
  }

  lemma {:induction false} NonAcesConcat(a: seq<Face>, b: seq<Face>)
    ensures NonAces(a + b) == NonAces(a) + NonAces(b)
  {
    if a == [] {
      assert a + b == b;
    } else {
      var x, t := a[0], a[1..];
      var head: seq<Face> := if x == Ace then [] else [x];
      calc {
        NonAces(a + b);
        { assert a + b == [x] + (t + b); }
        NonAces([x] + (t + b));
        { NonAcesCons(x, t + b); }
        head + NonAces(t + b);
        { NonAcesConcat(t, b); }
        head + (NonAces(t) + NonAces(b));
        (head + NonAces(t)) + NonAces(b);
        { assert a == [x] + t; NonAcesCons(x, t); }
        NonAces(a) + NonAces(b);
      }
    }
  }

  lemma NonAcesCons(x: Face, fs: seq<Face>)
    ensures NonAces([x] + fs) == (if x == Ace then [] else [x]) + NonAces(fs)
  {
    assert ([x] + fs)[0] == x;
    assert ([x] + fs)[1..] == fs;
  }

  lemma {:induction false} PipSumConcat(a: seq<Face>, b: seq<Face>)
    ensures PipSum(a + b) == PipSum(a) + PipSum(b)
  {
    if a == [] {
      assert a + b == b;
    } else {
      PipSumConcat(a[1..], b);
      assert a + b == [a[0]] + (a[1..] + b);
      PipSumCons(a[0], a[1..] + b);
      assert a == [a[0]] + a[1..];
      PipSumCons(a[0], a[1..]);
    }
  }

  lemma HandConcat(a: seq<Card>, b: seq<Card>)
    ensures Aces(a + b) == Aces(a) + Aces(b)
    ensures Others(a + b) == Others(a) + Others(b)
    ensures Pips(a + b) == Pips(a) + Pips(b)
  {
    AcesConcat(a, b);
    OthersConcat(a, b);
    PipsConcat(a, b);
  }

  lemma AcesConcat(a: seq<Card>, b: seq<Card>)
    ensures Aces(a + b) == Aces(a) + Aces(b)
  {
    assert FacesOf(a + b) == FacesOf(a) + FacesOf(b);
    AceCountConcat(FacesOf(a), FacesOf(b));
  }

  lemma OthersConcat(a: seq<Card>, b: seq<Card>)
    ensures Others(a + b) == Others(a) + Others(b)
  {
    assert FacesOf(a + b) == FacesOf(a) + FacesOf(b);
    NonAcesConcat(FacesOf(a), FacesOf(b));
  }

  lemma PipsConcat(a: seq<Card>, b: seq<Card>)
    ensures Pips(a + b) == Pips(a) + Pips(b)
  {
    assert FacesOf(a + b) == FacesOf(a) + FacesOf(b);
    NonAcesConcat(FacesOf(a), FacesOf(b));
    PipSumConcat(NonAces(FacesOf(a)), NonAces(FacesOf(b)));
  }

  lemma SingleCard(c: Card)
    ensures Aces([c]) == if c.face == Ace then 1 else 0
    ensures Others([c]) == if c.face == Ace then 0 else 1
    ensures Pips([c]) == if c.face == Ace then 0 else FaceValue(c.face)
  {
    var fs := FacesOf([c]);
    assert fs == [c.face];
    assert fs[1..] == [];
    assert AceCount(fs) == (if c.face == Ace then 1 else 0) + AceCount([]);
    assert NonAces(fs) == (if c.face == Ace then [] else [c.face]) + NonAces([]);
    if c.face != Ace {
      PipSumCons(c.face, []);
      assert [c.face] + [] == [c.face];
    }
  }

  /** The sum of the card values of a hand, every ace counting 1. */
  function HardSum(h: seq<Card>): nat
  {
    if h == [] then 0 else FaceValue(h[0].face) + HardSum(h[1..])
  }

  lemma {:induction false} HardSumSnoc(h: seq<Card>, c: Card)
    ensures HardSum(h + [c]) == HardSum(h) + FaceValue(c.face)
  {
    if h == [] {
      assert h + [c] == [c];
      assert [c][1..] == [];
    } else {
      HardSumSnoc(h[1..], c);
      assert (h + [c])[0] == h[0];
      assert (h + [c])[1..] == h[1..] + [c];
    }
  }

  lemma {:induction false} NoAces(fs: seq<Face>)
    requires forall i :: 0 <= i < |fs| ==> fs[i] != Ace
    ensures AceCount(fs) == 0
  {
    if fs != [] {
      NoAces(fs[1..]);
    }
  }

  lemma {:induction false} PipSumIsHardSum(h: seq<Card>)
    ensures PipSum(FacesOf(h)) == HardSum(h)
  {
    if h != [] {
      PipSumIsHardSum(h[1..]);
      assert FacesOf(h)[1..] == FacesOf(h[1..]);
    }
  }

  /** A hand without aces is worth the sum of its card values. */
  lemma AceFreeTotal(h: seq<Card>, highPair: bool)
    requires forall i :: 0 <= i < |h| ==> h[i].face != Ace
    ensures TotalValue(h, highPair) == HardSum(h)
  {
    NoAces(FacesOf(h));
    NoAceTotal(h, highPair);
    PipSumIsHardSum(h);
  }

  lemma NoAceTotal(h: seq<Card>, highPair: bool)
    requires Aces(h) == 0
    ensures TotalValue(h, highPair) == PipSum(FacesOf(h))
  {
  }

  /** The total written over the three tallies; the filter guard makes no difference. */
  lemma TotalByTallies(h: seq<Card>, highPair: bool)
    ensures Others(h) + Aces(h) == |h|
    ensures TotalValue(h, highPair) ==
      Pips(h) + (if AcePairDraw(h) then (if highPair then 12 else 2)
                 else if Pips(h) >= 11 then Aces(h) else 11 * Aces(h))
  {
    NonAcesNoAces(FacesOf(h));
  }

  /** The total of a hand does not depend on the order of its cards. */
  lemma {:induction false} ValueIgnoresOrder(h1: seq<Card>, h2: seq<Card>, highPair: bool)
    requires multiset(h1) == multiset(h2)
    ensures TotalValue(h1, highPair) == TotalValue(h2, highPair)
  {
    TalliesIgnoreOrder(h1, h2);
    TotalByTallies(h1, highPair);
    TotalByTallies(h2, highPair);
  }

  lemma TalliesIgnoreOrder(h1: seq<Card>, h2: seq<Card>)
    requires multiset(h1) == multiset(h2)
    ensures Aces(h1) == Aces(h2) && Others(h1) == Others(h2) && Pips(h1) == Pips(h2)
  {
    AcesIgnoreOrder(h1, h2);
    OthersIgnoreOrder(h1, h2);
    PipsIgnoreOrder(h1, h2);
  }

  lemma {:induction false} AcesIgnoreOrder(h1: seq<Card>, h2: seq<Card>)
    requires multiset(h1) == multiset(h2)
    ensures Aces(h1) == Aces(h2)
    decreases |h1|
  {
    if h1 == [] {
      assert |h2| == |multiset(h2)| == 0;
    } else {
      var i := RemovedAt(h1, h2);
      AcesIgnoreOrder(h1[1..], h2[..i] + h2[i + 1..]);
      AcesConcat([h1[0]], h1[1..]);
      AcesConcat(h2[..i] + [h2[i]], h2[i + 1..]);
      AcesConcat(h2[..i], [h2[i]]);
      AcesConcat(h2[..i], h2[i + 1..]);
    }
  }

  lemma {:induction false} OthersIgnoreOrder(h1: seq<Card>, h2: seq<Card>)
    requires multiset(h1) == multiset(h2)
    ensures Others(h1) == Others(h2)
    decreases |h1|
  {
    if h1 == [] {
      assert |h2| == |multiset(h2)| == 0;
    } else {
      var i := RemovedAt(h1, h2);
      OthersIgnoreOrder(h1[1..], h2[..i] + h2[i + 1..]);
      OthersConcat([h1[0]], h1[1..]);
      OthersConcat(h2[..i] + [h2[i]], h2[i + 1..]);
      OthersConcat(h2[..i], [h2[i]]);
      OthersConcat(h2[..i], h2[i + 1..]);
    }
  }

  lemma {:induction false} PipsIgnoreOrder(h1: seq<Card>, h2: seq<Card>)
    requires multiset(h1) == multiset(h2)
    ensures Pips(h1) == Pips(h2)
    decreases |h1|
  {
    if h1 == [] {
      assert |h2| == |multiset(h2)| == 0;
    } else {
      var i := RemovedAt(h1, h2);
      PipsIgnoreOrder(h1[1..], h2[..i] + h2[i + 1..]);
      PipsConcat([h1[0]], h1[1..]);
      PipsConcat(h2[..i] + [h2[i]], h2[i + 1..]);
      PipsConcat(h2[..i], [h2[i]]);
      PipsConcat(h2[..i], h2[i + 1..]);
    }
  }

  /** Where the first card of h1 sits in its permutation h2, and what is left of both without it. */
  lemma RemovedAt(h1: seq<Card>, h2: seq<Card>) returns (i: nat)
    requires multiset(h1) == multiset(h2) && h1 != []
    ensures i < |h2| && h2[i] == h1[0]
    ensures multiset(h1[1..]) == multiset(h2[..i] + h2[i + 1..])
    ensures h1 == [h1[0]] + h1[1..]
    ensures h2 == h2[..i] + [h2[i]] + h2[i + 1..]
  {
    assert h1[0] in multiset(h2);
    i :| 0 <= i < |h2| && h2[i] == h1[0];
    RemoveAt(h1, h2, i);
  }

  lemma RemoveAt(h1: seq<Card>, h2: seq<Card>, i: nat)
    requires multiset(h1) == multiset(h2) && h1 != [] && i < |h2| && h2[i] == h1[0]
    ensures multiset(h1[1..]) == multiset(h2[..i] + h2[i + 1..])
  {
    var x := h1[0];
    assert h1 == [x] + h1[1..];
    assert h2 == h2[..i] + [x] + h2[i + 1..];
    calc {
      multiset(h1[1..]);
      multiset(h1) - multiset{x};
      multiset(h2) - multiset{x};
      multiset(h2[..i]) + multiset(h2[i + 1..]);
      multiset(h2[..i] + h2[i + 1..]);
    }
  }

  /**
    The random draw matters exactly for hands of two aces and two other
    cards, and there the high draw is worth 10 more than the low one.
   */
  lemma DrawMattersIff(h: seq<Card>)
    ensures TotalValue(h, true) != TotalValue(h, false) <==> Aces(h) == 2 && |h| == 4
    ensures TotalValue(h, true) == TotalValue(h, false) + (if AcePairDraw(h) then 10 else 0)
  {
    TotalByTallies(h, true);
    TotalByTallies(h, false);
  }

  /** Every hand of two cards has one value, whatever the draw. */
  lemma TwoCardsDeterministic(h: seq<Card>)
    requires |h| == 2
    ensures TotalValue(h, true) == TotalValue(h, false)
  {
    DrawMattersIff(h);
  }

  /** The high draw never gives a smaller total than the low one. */
  lemma HighDrawAtLeastLow(h: seq<Card>)
    ensures TotalValue(h, false) <= TotalValue(h, true)
  {
    DrawMattersIff(h);
  }

  /** The usual blackjack total: aces count 1, and one ace counts 11 when that stays within 21. */
  function StandardValue(h: seq<Card>): nat
  {
    var hard := HardSum(h);
    if Aces(h) >= 1 && hard + 10 <= 21 then hard + 10 else hard
  }

  /** With at most one ace, the cog's rule is the usual one. */
  lemma AtMostOneAceIsStandard(h: seq<Card>, highPair: bool)
    requires Aces(h) <= 1
    ensures TotalValue(h, highPair) == StandardValue(h)
  {
    TotalByTallies(h, highPair);
    NonAcesNoAces(FacesOf(h));
    PipSumIsHardSum(h);
  }

  /**
    When the other cards sum to 11 or more, the cog's total is the usual
    one, except that two aces beside two other cards may draw 12 and so
    be worth 10 more.
   */
  lemma HighOthersIsStandard(h: seq<Card>, highPair: bool)
    requires Pips(h) >= 11
    ensures TotalValue(h, highPair) == StandardValue(h) + (if AcePairDraw(h) && highPair then 10 else 0)
  {
    TotalByTallies(h, highPair);
    NonAcesNoAces(FacesOf(h));
    PipSumIsHardSum(h);
  }

  /**
    Outside the random case, two or more aces beside other cards summing
    under 11 are worth 11 each, so the hand is bust, although the usual
    rule scores it lower.
   */
  lemma ManyAcesLowOthersBust(h: seq<Card>, highPair: bool)
    requires Aces(h) >= 2 && Pips(h) < 11 && !AcePairDraw(h)
    ensures TotalValue(h, highPair) > 21
    ensures StandardValue(h) < TotalValue(h, highPair)
  {
    TotalByTallies(h, highPair);
    NonAcesNoAces(FacesOf(h));
    PipSumIsHardSum(h);
  }

  /** A hand of two cards worth 21 or more holds an ace. */
  lemma TwoCardsAtLeast21HaveAce(h: seq<Card>, highPair: bool)
    requires |h| == 2 && TotalValue(h, highPair) >= 21
    ensures Aces(h) >= 1
  {
    TotalByTallies(h, highPair);
    if Aces(h) == 0 {
      HandConcat([h[0]], [h[1]]);
      assert h == [h[0]] + [h[1]];
      SingleCard(h[0]);
      SingleCard(h[1]);
    }
  }

  lemma Snoc(h: seq<Card>, c: Card)
    ensures Aces(h + [c]) == Aces(h) + (if c.face == Ace then 1 else 0)
    ensures Others(h + [c]) == Others(h) + (if c.face == Ace then 0 else 1)
    ensures Pips(h + [c]) == Pips(h) + (if c.face == Ace then 0 else FaceValue(c.face))
  {
    HandConcat(h, [c]);
    SingleCard(c);
  }

  /** [A, 9] is 20 and [A, 9, 5] is 15: the ace counts 11, then 1 once the others reach 11. */
  lemma ExampleAceNine(highPair: bool)
    ensures TotalValue([Card(Ace, Spades), Card(Nine, Hearts)], highPair) == 20
    ensures TotalValue([Card(Ace, Spades), Card(Nine, Hearts), Card(Five, Clubs)], highPair) == 15
  {
    var a, n, f := Card(Ace, Spades), Card(Nine, Hearts), Card(Five, Clubs);
    SingleCard(a);
    Snoc([a], n);
    assert [a] + [n] == [a, n];
    Snoc([a, n], f);
    assert [a, n] + [f] == [a, n, f];
    FaceValueByRank(Nine);
    FaceValueByRank(Five);
    TotalByTallies([a, n], highPair);
    TotalByTallies([a, n, f], highPair);
  }

  /** [A, A] is 22 and [A, A, 5] is 27: both aces count 11. */
  lemma ExampleAcePair(highPair: bool)
    ensures TotalValue([Card(Ace, Spades), Card(Ace, Hearts)], highPair) == 22
    ensures TotalValue([Card(Ace, Spades), Card(Ace, Hearts), Card(Five, Clubs)], highPair) == 27
  {
    var a, b, f := Card(Ace, Spades), Card(Ace, Hearts), Card(Five, Clubs);
    SingleCard(a);
    Snoc([a], b);
    assert [a] + [b] == [a, b];
    Snoc([a, b], f);
    assert [a, b] + [f] == [a, b, f];
    FaceValueByRank(Five);
    TotalByTallies([a, b], highPair);
    TotalByTallies([a, b, f], highPair);
  }

  /** [A, A, 5, 5] is the random case: 12 or 22. */
  lemma ExampleAcePairDraw(highPair: bool)
    ensures TotalValue([Card(Ace, Spades), Card(Ace, Hearts), Card(Five, Clubs), Card(Five, Hearts)], highPair)
            == if highPair then 22 else 12
  {
    var a, b, f, g := Card(Ace, Spades), Card(Ace, Hearts), Card(Five, Clubs), Card(Five, Hearts);
    SingleCard(a);
    Snoc([a], b);
    assert [a] + [b] == [a, b];
    Snoc([a, b], f);
    assert [a, b] + [f] == [a, b, f];
    Snoc([a, b, f], g);
    assert [a, b, f] + [g] == [a, b, f, g];
    FaceValueByRank(Five);
    TotalByTallies([a, b, f, g], highPair);
  }

  lemma {:induction false} AceCountOfFaces()
    ensures AceCount(Faces) == 1
  {
    var tail := Faces[1..];
    assert forall i :: 0 <= i < |tail| ==> tail[i] != Ace;
    NoAces(tail);
  }

  /** Faces laid out as n runs of the face table hold n aces. */
  lemma {:induction false} RunsOfFaces(s: seq<Face>, n: nat)
    requires |s| == 13 * n
    requires forall i :: 0 <= i < |s| ==> s[i] == Faces[i % 13]
    ensures AceCount(s) == n
  {
    if n > 0 {
      assert s[..13] == Faces;
      forall i | 0 <= i < |s[13..]|
        ensures s[13..][i] == Faces[i % 13]
      {
        assert (i + 13) % 13 == i % 13;
      }
      RunsOfFaces(s[13..], n - 1);
      assert s == s[..13] + s[13..];
      AceCountOfFaces();
      AceCountConcat(s[..13], s[13..]);
    }
  }

  /** A new deck holds four aces. */
  lemma NewDeckHasFourAces()
    ensures Aces(NewDeck()) == 4
  {
    RunsOfFaces(FacesOf(NewDeck()), 4);
  }
}

=== FILE: opening.dfy ===
/**
  The opening deal of a round. The cog deals two cards to the player and
  two to the dealer, and deals both pairs again, from the same and now
  smaller deck, for as long as either pair is worth 21 or more. The
  discarded pairs are not returned to the deck.
 */
module Opening {
  import opened Cards
  import opened HandValue
  import opened Dealing

  /**
    The opening deal with its redraws. It ends with two cards on each side,
    each pair worth under 21 whatever the two-ace draw. Each redraw takes
    four more cards from the same deck; since a pair worth 21 or more must
    hold an ace and the deck has only four, there are at most four redraws,
    so the deck never runs out.
   */
  method OpeningDeal() returns (deck: seq<Card>, user: seq<Card>, bot: seq<Card>, redraws: nat)
    ensures |user| == 2 && |bot| == 2
    ensures TotalValue(user, false) < 21 && TotalValue(user, true) < 21
    ensures TotalValue(bot, false) < 21 && TotalValue(bot, true) < 21
    ensures redraws <= 4
    ensures |deck| == 48 - 4 * redraws
    ensures multiset(deck) + multiset(user) + multiset(bot) <= multiset(NewDeck())
  {
    NewDeckHasFourAces();
    deck, user, bot := DealHands(NewDeck());
    redraws := 0;
    var userDraw: bool :| true;
    var botDraw: bool :| true;
    while TotalValue(user, userDraw) >= 21 || TotalValue(bot, botDraw) >= 21
      invariant |user| == 2 && |bot| == 2
      invariant |deck| == 48 - 4 * redraws
      invariant Aces(deck) + Aces(user) + Aces(bot) + redraws <= 4
      invariant multiset(deck) + multiset(user) + multiset(bot) <= multiset(NewDeck())
      decreases Aces(deck) + Aces(user) + Aces(bot)
    {
      if TotalValue(user, userDraw) >= 21 {
        TwoCardsAtLeast21HaveAce(user, userDraw);
      } else {
        TwoCardsAtLeast21HaveAce(bot, botDraw);
      }
      ghost var before := multiset(deck);
      deck, user, bot := DealHands(deck);
      assert multiset(deck) + multiset(user) + multiset(bot) == before;
      redraws := redraws + 1;
      userDraw :| true;
      botDraw :| true;
    }
    TwoCardsDeterministic(user);
    TwoCardsDeterministic(bot);
  }
}

=== FILE: score.dfy ===
/**
  Classifying a round. The cog checks its rules in a fixed order and
  reports a lose, win or tie with a message, or, when nothing is decided
  yet, the bare player total. The cog recomputes a hand's total at every
  check and so may draw a two-ace hand's 2-or-12 afresh at each; the model
  fixes one draw per hand for the whole classification (`userDraw`,
  `botDraw`).
 */
module Scoring {
  import opened Cards
  import opened HandValue

  /** The cog's `result` field: True, False or None. */
  datatype Verdict = Win | Lose | Tie

  /** Which rule decided; each stands for one of the cog's messages. */
  datatype Reason =
    | PlayerBusted | DealerBusted | PlayerHas21 | DealerHas21 | Tied
    | PlayerFiveCards | DealerFiveCards | DealerHigher | PlayerHigher

  datatype Status = Decided(verdict: Verdict, reason: Reason) | Continue(total: int)

  function Score(stood: bool, user: seq<Card>, bot: seq<Card>, userDraw: bool, botDraw: bool): (s: Status)
    ensures TotalValue(user, userDraw) > 21 ==> s == Decided(Lose, PlayerBusted)
    ensures s.Continue? <==>
              && !stood
              && TotalValue(user, userDraw) < 21 && TotalValue(bot, botDraw) < 21
              && |user| != 5 && |bot| != 5
    ensures s.Continue? ==> s.total == TotalValue(user, userDraw)
    ensures s.Decided? && s.verdict == Tie ==> stood && TotalValue(user, userDraw) == TotalValue(bot, botDraw)
  {
    var p := TotalValue(user, userDraw);
    var d := TotalValue(bot, botDraw);
    if p > 21 then Decided(Lose, PlayerBusted)
    else if d > 21 then Decided(Win, DealerBusted)
    else if p == 21 then Decided(Win, PlayerHas21)
    else if d == 21 then Decided(Lose, DealerHas21)
    else if p == d && stood then Decided(Tie, Tied)
    else if p < 21 && |user| == 5 then Decided(Win, PlayerFiveCards)
    else if d < 21 && |bot| == 5 then Decided(Lose, DealerFiveCards)
    else if d > p && stood then Decided(Lose, DealerHigher)
    else if p > d && stood then Decided(Win, PlayerHigher)
    else Continue(p)
  }

  /** The player wins, stated without precedence: p and d are the two totals. */
  predicate PlayerWins(stood: bool, p: int, d: int, userCards: nat, botCards: nat)
  {
    || (p <= 21 && d > 21)
    || (p == 21 && d <= 21)
    || (p < 21 && d < 21 && !(stood && p == d)
        && (userCards == 5 || (botCards != 5 && stood && p > d)))
  }

  /** The player loses, stated without precedence. */
  predicate PlayerLoses(stood: bool, p: int, d: int, userCards: nat, botCards: nat)
  {
    || p > 21
    || (p < 21 && d == 21)
    || (p < 21 && d < 21 && !(stood && p == d) && userCards != 5
        && (botCards == 5 || (stood && d > p)))
  }

  /** The ordered checks of Score decide exactly as the flat rules say. */
  lemma ScoreMatchesRules(stood: bool, user: seq<Card>, bot: seq<Card>, userDraw: bool, botDraw: bool)
    ensures var s := Score(stood, user, bot, userDraw, botDraw);
            var p, d := TotalValue(user, userDraw), TotalValue(bot, botDraw);
            && (s.Decided? && s.verdict == Win <==> PlayerWins(stood, p, d, |user|, |bot|))
            && (s.Decided? && s.verdict == Lose <==> PlayerLoses(stood, p, d, |user|, |bot|))
            && (s.Decided? && s.verdict == Tie <==> stood && p == d && p < 21)
  {
  }

  /** Once the player has stood, every classification decides the round. */
  lemma StoodAlwaysDecides(user: seq<Card>, bot: seq<Card>, userDraw: bool, botDraw: bool)
    ensures Score(true, user, bot, userDraw, botDraw).Decided?
  {
  }

  /** Example: 19 against 18 after standing is a win. */
  lemma ExampleHigherOnStand()
    ensures Score(true, [Card(Ten, Spades), Card(Nine, Spades)], [Card(Ten, Hearts), Card(Eight, Hearts)], false, false)
            == Decided(Win, PlayerHigher)
  {
    FaceValueByRank(Ten);
    FaceValueByRank(Nine);
    FaceValueByRank(Eight);
    AceFreeTotal([Card(Ten, Spades), Card(Nine, Spades)], false);
    AceFreeTotal([Card(Ten, Hearts), Card(Eight, Hearts)], false);
  }

  /**
    The cog's classification as written. Every check calls total_value
    afresh, so a hand of two aces beside two other cards may draw its
    2-or-12 anew each time. `u[k]` is the draw for the player's hand at the
    k-th check that reads it (lines 138, 142, 149, 151, 162, 168, 176) and
    `b[k]` the draw for the dealer's hand (lines 140, 144, 149, 156, 161,
    169).
   */
  function ScoreRedrawn(stood: bool, user: seq<Card>, bot: seq<Card>, u: seq<bool>, b: seq<bool>): (s: Status)
    requires |u| == 7 && |b| == 6
    ensures TotalValue(user, u[0]) > 21 ==> s == Decided(Lose, PlayerBusted)
    ensures s.Decided? && s.verdict == Tie ==> stood
    ensures s.Continue? ==> s.total == TotalValue(user, u[6])
  {
    if TotalValue(user, u[0]) > 21 then Decided(Lose, PlayerBusted)
    else if TotalValue(bot, b[0]) > 21 then Decided(Win, DealerBusted)
    else if TotalValue(user, u[1]) == 21 then Decided(Win, PlayerHas21)
    else if TotalValue(bot, b[1]) == 21 then Decided(Lose, DealerHas21)
    else if TotalValue(user, u[2]) == TotalValue(bot, b[2]) && stood then Decided(Tie, Tied)
    else if TotalValue(user, u[3]) < 21 && |user| == 5 then Decided(Win, PlayerFiveCards)
    else if TotalValue(bot, b[3]) < 21 && |bot| == 5 then Decided(Lose, DealerFiveCards)
    else if TotalValue(bot, b[4]) > TotalValue(user, u[4]) && stood then Decided(Lose, DealerHigher)
    else if TotalValue(user, u[5]) > TotalValue(bot, b[5]) && stood then Decided(Win, PlayerHigher)
    else Continue(TotalValue(user, u[6]))
  }

  /**
    Fresh draws change nothing unless a hand holds two aces beside two
    other cards: then the cog's classification is Score's.
   */
  lemma RedrawsMatterOnlyForAcePairs(stood: bool, user: seq<Card>, bot: seq<Card>, u: seq<bool>, b: seq<bool>)
    requires |u| == 7 && |b| == 6
    requires !AcePairDraw(user) && !AcePairDraw(bot)
    ensures ScoreRedrawn(stood, user, bot, u, b) == Score(stood, user, bot, false, false)
  {
    DrawMattersIff(user);
    DrawMattersIff(bot);
  }

  /** With one draw per hand throughout, the cog's classification is Score's. */
  lemma SameDrawsScoreAlike(stood: bool, user: seq<Card>, bot: seq<Card>, userDraw: bool, botDraw: bool)
    ensures ScoreRedrawn(stood, user, bot, seq(7, _ => userDraw), seq(6, _ => botDraw))
            == Score(stood, user, bot, userDraw, botDraw)
  {
    var u, b := seq(7, _ => userDraw), seq(6, _ => botDraw);
    assert u[0] == u[1] == u[2] == u[3] == u[4] == u[5] == u[6] == userDraw;
    assert b[0] == b[1] == b[2] == b[3] == b[4] == b[5] == botDraw;
  }

  function StoodPlayer(): seq<Card>
  {
    [Card(Five, Spades), Card(Four, Spades), Card(Ace, Spades), Card(Ace, Hearts)]
  }

  function StoodDealer(): seq<Card> { [Card(Ten, Hearts), Card(Seven, Hearts)] }

  /** The stood player's 5, 4, A, A is worth 11 or 21; the dealer's 10, 7 is 17. */
  lemma StoodTotals(botDraw: bool)
    ensures TotalValue(StoodPlayer(), false) == 11 && TotalValue(StoodPlayer(), true) == 21
    ensures TotalValue(StoodDealer(), botDraw) == 17
  {
    StoodPlayerTallies();
    TotalByTallies(StoodPlayer(), false);
    TotalByTallies(StoodPlayer(), true);
    FaceValueByRank(Ten);
    FaceValueByRank(Seven);
    AceFreeTotal(StoodDealer(), botDraw);
  }

  lemma StoodPlayerTallies()
    ensures Aces(StoodPlayer()) == 2 && Others(StoodPlayer()) == 2 && Pips(StoodPlayer()) == 9
  {
    var f, g, a, c := Card(Five, Spades), Card(Four, Spades), Card(Ace, Spades), Card(Ace, Hearts);
    SingleCard(f);
    Snoc([f], g);
    assert [f] + [g] == [f, g];
    Snoc([f, g], a);
    assert [f, g] + [a] == [f, g, a];
    Snoc([f, g, a], c);
    assert [f, g, a] + [c] == StoodPlayer();
    FaceValueByRank(Five);
    FaceValueByRank(Four);
  }

  /**
    A stand that does not decide the round: drawing 2 at line 142, 12 at
    lines 149, 151, 161-162 and 2 at line 168 passes every check, so the
    cog returns the bare total and asks for another input after the stand.
   */
  lemma StoodMayContinue()
    ensures ScoreRedrawn(true, StoodPlayer(), StoodDealer(),
                         [false, false, true, true, true, false, false], [false, false, false, false, false, false]).Continue?
  {
    StoodTotals(false);
  }

  /** A, 5, then a hit of 6 and a hit of A: two aces beside two other cards. */
  function PairPlayer(): seq<Card>
  {
    [Card(Ace, Spades), Card(Five, Clubs), Card(Six, Clubs), Card(Ace, Hearts)]
  }

  function LowDealer(): seq<Card> { [Card(Ten, Diamonds), Card(Five, Diamonds)] }

  /** The tallies of the player's hand after the opening and after each hit. */
  lemma PairPlayerTallies()
    ensures Aces(PairPlayer()[..2]) == 1 && Others(PairPlayer()[..2]) == 1 && Pips(PairPlayer()[..2]) == 5
    ensures Aces(PairPlayer()[..3]) == 1 && Others(PairPlayer()[..3]) == 2 && Pips(PairPlayer()[..3]) == 11
    ensures Aces(PairPlayer()) == 2 && Others(PairPlayer()) == 2 && Pips(PairPlayer()) == 11
  {
    var a, f, x, c := Card(Ace, Spades), Card(Five, Clubs), Card(Six, Clubs), Card(Ace, Hearts);
    SingleCard(a);
    Snoc([a], f);
    assert [a] + [f] == [a, f] == PairPlayer()[..2];
    Snoc([a, f], x);
    assert [a, f] + [x] == [a, f, x] == PairPlayer()[..3];
    Snoc([a, f, x], c);
    assert [a, f, x] + [c] == PairPlayer();
    FaceValueByRank(Five);
    FaceValueByRank(Six);
  }

  /** The player's A, 5 is 16, A, 5, 6 is 12, and A, 5, 6, A is 13 or 23; the dealer's 10, 5 is 15. */
  lemma PairTotals(userDraw: bool, botDraw: bool)
    ensures TotalValue(PairPlayer()[..2], userDraw) == 16
    ensures TotalValue(PairPlayer()[..3], userDraw) == 12
    ensures TotalValue(PairPlayer(), userDraw) == if userDraw then 23 else 13
    ensures TotalValue(LowDealer(), botDraw) == 15
  {
    PairPlayerTallies();
    TotalByTallies(PairPlayer()[..2], userDraw);
    TotalByTallies(PairPlayer()[..3], userDraw);
    TotalByTallies(PairPlayer(), userDraw);
    FaceValueByRank(Ten);
    FaceValueByRank(Five);
    AceFreeTotal(LowDealer(), botDraw);
  }

  /**
    The bust branch of `dealersTurn` handed the bare total. The player opens
    A, 5 (16) against 10, 5 (15), hits a 6 (12) and an A (13 with the draw
    of 2), and the round goes on after each. After a stand, the draw of 12
    makes the hand read 23 at line 254, so the branch calls `score` with
    `stood` true; there the draws (12 only at line 162) pass every check
    and `score` returns the bare total 13, not the result record that `end`
    unpacks at line 209.
   */
  lemma BustBranchMayGetBareTotal(userDraw: bool, botDraw: bool)
    ensures Score(false, PairPlayer()[..2], LowDealer(), userDraw, botDraw) == Continue(16)
    ensures Score(false, PairPlayer()[..3], LowDealer(), userDraw, botDraw) == Continue(12)
    ensures Score(false, PairPlayer(), LowDealer(), false, botDraw) == Continue(13)
    ensures TotalValue(PairPlayer(), true) > 21
    ensures ScoreRedrawn(true, PairPlayer(), LowDealer(),
                         [false, false, false, false, true, false, false], [false, false, false, false, false, false])
            == Continue(13)
  {
    PairTotals(userDraw, botDraw);
    PairTotals(true, false);
    PairTotals(false, false);
  }
}

=== FILE: wager.dfy ===
/**
  Admitting a wager at the start of a round. The wallet balance comes from
  the ledger and the amount from the argument converter; both are inputs
  here. The checks run in the cog's order: too rich, no coins, over the
  maximum bet, more than the wallet (where a bet of exactly the maximum is
  lowered to the whole wallet instead).
 */
module Wager {

  /** The largest bet. */
  const MaxBet: int := 500000

  /** A wallet this large may not play. */
  const RichLimit: int := 10000000

  datatype WagerError = TooRich | NoCoins | OverMaximum | NotEnoughCoins

  datatype Admission = Accepted(amount: int) | Refused(error: WagerError)

  function Admit(wallet: int, amount: int): (r: Admission)
    ensures r == Refused(TooRich) <==> wallet >= RichLimit
    ensures r == Refused(NoCoins) <==> wallet == 0
    ensures r == Refused(OverMaximum) <==> wallet < RichLimit && wallet != 0 && amount > MaxBet
    ensures r == Refused(NotEnoughCoins) <==>
              wallet < RichLimit && wallet != 0 && wallet < amount < MaxBet
    ensures r.Accepted? ==> r.amount <= wallet && r.amount <= MaxBet
    ensures r.Accepted? && amount <= wallet ==> r.amount == amount
    ensures r.Accepted? && amount > wallet ==> amount == MaxBet && r.amount == wallet
  {
    if wallet >= RichLimit then Refused(TooRich)
    else if wallet == 0 then Refused(NoCoins)
    else if amount > MaxBet then Refused(OverMaximum)
    else if amount > wallet then
      if amount != MaxBet then Refused(NotEnoughCoins) else Accepted(wallet)
    else Accepted(amount)
  }
}
